=== FILE: README.md ===
# cielab-dither in Dafny

This project models the palette quantiser of cielab-dither, a TypeScript library. The quantiser reduces an RGBA image to a fixed palette. Each pixel is replaced by the palette colour nearest to it in CIE Lab space, either plainly or with Floyd–Steinberg error diffusion (Floyd and Steinberg, 1976).

The model has five files:

- `colors.dfy`: module `Colors`, for `src/colors.ts`. It holds colours as triples of reals, `hexToRgb`, squared `colorDistance`, the per-channel `addColors`/`subtractColors`/`colorGain`, and `closestColor`.
  - `closestColor` is an arg-min whose ties go to the earliest palette entry. That is the order a stable ascending sort by distance leaves first.
  - The four colour-space conversions are passed in as a `Conversions` record of arbitrary functions, so every result holds for any conversions.
- `pixelator.dfy`: module `Pixels`, for `src/pixelator.ts`.
  - It has the byte-level view of the row-major RGBA buffer (offset `y*width*4 + x*4`) and the clamped byte store of a `Uint8ClampedArray`.
  - The class `Pixelator` has a read cache per colour space. `write` never invalidates that cache. `GetPixel` is the cache lookup that `Read` uses.
- `scan_spec.dfy`: module `ScanSpec`. It describes what the two scans of `src/dithering.ts` compute, as functions of the original buffer, and proves the ordering facts behind them. The carry map when the scan reaches `(x, y)`, `CarryBefore`, is defined by recursion over the raster order.
- `dithering.dfy`: module `Dithering`, for `src/dithering.ts`. It has the memoised `getClosestColor` and the two in-place scans.
  - The scans are written as nested loops: a method per row and a method per pixel.
  - Each scan is proved to leave every pixel as the matching specification function says.
- `wrappers.dfy`: the `Option` type.

The source's errors are modelled as results:

- `closestColor` on an empty palette throws when it reads the first sorted item. It is modelled as `None`.
- Both scans return `ok == false` exactly when the image has a pixel and the palette is empty. The buffer is then unchanged, since the throw happens before the first write.

## Model

| member | source | states |
|---|---|---|
| Colors.HexToRgb | src/colors.ts:9-28 | When the characters actually parsed are hex digits, every channel is a whole number in [0, 255]. |
| Colors.HexToRgbParsedLengths | src/colors.ts:11-20 | After the first character is dropped (length 4 or more than 6), the parsed string has exactly 3 characters iff the input has 3 or 4. It has at least 6 iff the input has at least 6. It has neither iff the input length is 0, 1, 2 or 5. |
| Colors.HexToRgbMalformedIsBlack | src/colors.ts:10-27 | Inputs of length 0, 1, 2 or 5 give [0, 0, 0]. |
| Colors.HexToRgbShorthand | src/colors.ts:14-19 | In the three-digit form, each channel is 17 times its digit. |
| Colors.HexToRgbIgnoresTail | src/colors.ts:20-25 | Characters after the first six parsed ones do not affect the result. |
| Colors.HexToRgbExamples | src/colors.ts:9-28 | "#FF0000" and "#F00" give [255, 0, 0]; "abc" gives [0xaa, 0xbb, 0xcc]. |
| Colors.HexToRgbInvertsRgbToHex | src/colors.ts:20-25 | Parsing `#rrggbb` written for a byte colour gives that colour back. |
| Colors.HexToRgbInvertsShorthand | src/colors.ts:14-19 | Parsing `#rgb` gives 17 times each digit. |
| Colors.SquaredDistance | src/colors.ts:164-170 | The squared distance is non-negative and is zero for identical colours. |
| Colors.SquaredDistanceSymmetric | src/colors.ts:164-170 | Distance is symmetric. |
| Colors.SquaredDistanceExample | src/colors.ts:164-170 | The distance from [0,0,0] to [3,4,0] is 5. |
| Colors.AddColors | src/colors.ts:180-186 | Adds channel by channel; subtracting the second colour from the sum gives the first back. |
| Colors.SubtractColors | src/colors.ts:172-178 | Subtracts channel by channel; the difference is black exactly when the two colours are equal. |
| Colors.ColorGain | src/colors.ts:188-194 | Scales channel by channel; gain 1 keeps the colour and gain 0 gives black (linearity is `ColorGainLinear`). |
| Colors.SubtractUndoesAdd | src/colors.ts:172-186 | Over exact numbers, subtracting `b` undoes adding `b` and vice versa. |
| Colors.AddBlack | src/colors.ts:180-186 | [0,0,0] is the identity of addColors. |
| Colors.ColorGainLinear | src/colors.ts:188-194 | colorGain scales channel by channel. It is linear in the colour and in the gain; gain 1 is the identity and gain 0 gives black. |
| Colors.ClosestIndex | src/colors.ts:207-210 | Picks a valid index of a non-empty palette; `ClosestIndexIsFirstNearest` shows it is the first nearest entry. |
| Colors.ClosestIndexIsFirstNearest | src/colors.ts:207-210 | The index chosen is no farther than any entry, and every earlier entry is strictly farther. That is the first item of a stable ascending sort by distance. |
| Colors.ClosestIndexUnique | src/colors.ts:207-210 | Those two properties determine the index. |
| Colors.ClosestColor | src/colors.ts:200-212 | The result is missing exactly when the palette is empty, which is the failing `diffItems[0].color`. Otherwise it is a palette entry. |
| Colors.ClosestColorIsNearest | src/colors.ts:200-212 | On a non-empty palette the result is at least as near as every palette entry. |
| Colors.ClosestColorOfMember | src/colors.ts:200-212 | A colour that is in the palette is matched at distance zero. |
| Colors.ClosestColorExample | src/colors.ts:200-212 | [10,10,10] against black and white gives black. |
| Pixels.OffsetInBuffer | src/pixelator.ts:37-41 | The four bytes at `y*width*4 + x*4` of an in-image point lie inside the buffer. |
| Pixels.SlotsApart | src/pixelator.ts:38-40 | Distinct in-image points occupy disjoint four-byte slots. |
| Pixels.ByteInSomePixel | src/pixelator.ts:37-41 | Every byte of the buffer belongs to the slot of some in-image point. |
| Pixels.RawRgb | src/pixelator.ts:37-41 | The triple read from a byte buffer has whole channels in [0, 255]. |
| Pixels.ClampByte | src/pixelator.ts:71-73 | A stored number becomes a byte: clamped to [0, 255] and rounded to within 1/2, with byte values kept exactly. |
| Pixels.StoreRgb | src/pixelator.ts:69-73 | A store sets the three colour bytes of the point, keeps its alpha and leaves every other pixel and the length as they were. |
| Pixels.RawRgbAfterStore | src/pixelator.ts:69-73 | Reading back a stored byte colour gives it again. |
| Pixels.StoreRawRgbIsIdentity | src/pixelator.ts:69-73 | Storing the colour bytes just read leaves the buffer unchanged. |
| Pixels.Pixelator.constructor | src/pixelator.ts:9-11 | A new accessor wraps the buffer and has no caches. |
| Pixels.Pixelator.InitMap | src/pixelator.ts:13-18 | Creates the cache of a colour space only if it is missing, and returns it. |
| Pixels.GetPixelSeesSetPixel | src/pixelator.ts:20-26 | After setPixel records a colour at a point, getPixel of that point hits with that colour, and getPixel of every other point is unchanged. |
| Pixels.Pixelator.SetPixel | src/pixelator.ts:24-26 | Records a colour for the point in one cache; no other cache changes. |
| Pixels.Pixelator.Read | src/pixelator.ts:28-55 | A cached point returns the cached colour and changes nothing. Otherwise the result is the conversion of the raw RGB bytes for that space, recorded in that space's cache only. The buffer never changes. |
| Pixels.Pixelator.Write | src/pixelator.ts:57-74 | The buffer becomes the store of the value converted to RGB for its space. The caches do not change. |
| Pixels.StaleReadAfterWrite | src/pixelator.ts:28-33 | A read after a write to the same point returns the colour cached by the first read, while the buffer holds the written one. |
| ScanSpec.RasterOrderMembers | src/dithering.ts:23-24 | The scan order visits exactly the points of the image. |
| ScanSpec.RasterOrderIncreasing | src/dithering.ts:23-24 | The scan order is strictly increasing in row-major order, so no point is visited twice. |
| ScanSpec.RasterOrderLength | src/dithering.ts:23-24 | The scan visits `width*height` points. |
| ScanSpec.NoDitherChoiceIsNearest | src/dithering.ts:25-26 | The plain scan's colour is a palette entry nearest, in Lab, to the pixel's original colour. |
| ScanSpec.FsChoiceIsNearest | src/dithering.ts:40-45 | The diffusing scan's colour is a palette entry nearest to the pixel's colour plus its carry. |
| ScanSpec.AdjustedAddsCarry | src/dithering.ts:41-44 | Adding the carry if present is adding the carry or black. |
| ScanSpec.QuantErrorPlusChoice | src/dithering.ts:48 | The error plus the chosen colour is the adjusted colour. |
| ScanSpec.KernelHandsOutWholeError | src/dithering.ts:51-78 | The increments 7/16, 1/16, 5/16 and 3/16 of the error add up to exactly the error. |
| ScanSpec.KernelWeightsSumToOne | src/dithering.ts:51-78 | The four weights sum to one. |
| ScanSpec.KernelTargetsLater | src/dithering.ts:52-77 | A point gets a share exactly when it is one of the four targets, and every target is strictly later in row-major order. |
| ScanSpec.CarryAtAccumulate | src/dithering.ts:54-56 | One update sets the target to its previous carry (or black) plus the weighted error and changes no other point's carry. |
| ScanSpec.DiffuseAddsKernelShare | src/dithering.ts:51-78 | After the four updates, every point's carry is its old carry plus its kernel share of the error (zero for non-targets). |
| ScanSpec.DiffuseKeys | src/dithering.ts:51-78 | The four updates add the four target keys and remove none. |
| ScanSpec.CarryAfterIsDiffuse | src/dithering.ts:51-78 | The four updates made one by one at a pixel, in the source's order, are those four updates. |
| ScanSpec.CarryAfterDiffuses | src/dithering.ts:40-78 | Processing a pixel diffuses the error of the colour chosen with the carry the pixel was reached with. |
| ScanSpec.CarryAfterAddsShare | src/dithering.ts:51-78 | Processing a pixel adds to every point its kernel share of that pixel's error. |
| ScanSpec.CarryAfterKeepsEarlier | src/dithering.ts:51-78 | Processing a pixel leaves the carry of every point not after it unchanged. |
| ScanSpec.CarryFinalWhenReached | src/dithering.ts:41-44 | A point's carry when the scan reaches it equals its carry at any later moment, so it is final. |
| ScanSpec.FsChosenUsesFinalCarry | src/dithering.ts:40-45 | The colour written at a point is the one nearest to its original colour plus all the error ever carried to it. |
| ScanSpec.CarryKeysGrow | src/dithering.ts:51-78 | Carry entries are never removed as the scan advances. |
| ScanSpec.CarryKeysNearImage | src/dithering.ts:52-77 | Carry keys lie in the image or one step outside it: column -1, column `width` or row `height`. |
| Dithering.ClosestColorMemo.constructor | src/dithering.ts:4 | The memo starts empty. |
| Dithering.ClosestColorMemo.GetClosestColor | src/dithering.ts:6-18 | The answer is always closestColor's, so the memo never changes it. The palette's table is created first, even when the lookup then fails. A remembered colour leaves the memo unchanged, and a new colour is recorded with its answer. Every remembered answer stays correct. |
| Dithering.RepeatedLookup | src/dithering.ts:6-18 | Two lookups give the same answer, and the colour then maps to it in the palette's table. |
| Dithering.ReadNext | src/dithering.ts:25-40 | In both scans (the reads at lines 25 and 40), the colour read at the next pixel of the scan is the Lab value of its original colour, because that point has been neither written nor cached. |
| Dithering.NoDitherAdvance | src/dithering.ts:27 | After the write at `p`, all points up to and including `p` hold their final value and all later ones their original value. |
| Dithering.NoDitherStep | src/dithering.ts:25-27 | One pixel: it fails exactly on an empty palette, without writing; otherwise it moves the scanned/unscanned boundary one point forward. |
| Dithering.NoDitherRow | src/dithering.ts:24-28 | One row: it visits `(0,y) … (width-1,y)` and leaves the whole row with its final values. |
| Dithering.AdoptPaletteNoDither | src/dithering.ts:20-30 | It fails exactly when there is a pixel and no palette colour, leaving the buffer as it was. Otherwise it visits the image in raster order and leaves every pixel as the Lab palette colour nearest to its original colour, converted to RGB, with alpha kept. Every remembered answer stays correct. |
| Dithering.DistributeError | src/dithering.ts:50-78 | The four in-place carry updates compute the kernel diffusion of the error. |
| Dithering.FsAdvance | src/dithering.ts:80 | After the write at `p`, all points up to and including `p` hold their final value and all later ones their original value. |
| Dithering.FsQuantise | src/dithering.ts:38-78 | The chosen colour is the specification's choice for the point, and the carry map becomes the one the specification has at the next point. |
| Dithering.FsStep | src/dithering.ts:38-80 | One pixel: it fails exactly on an empty palette, without writing; otherwise it moves the boundary and the carry one point forward. |
| Dithering.FsRow | src/dithering.ts:37-81 | One row: it visits the row in order, leaves it with its final values and ends with the carry of the row's end. |
| Dithering.AdoptPaletteFloydSteinbergDither | src/dithering.ts:32-83 | It fails exactly when there is a pixel and no palette colour, leaving the buffer as it was. Otherwise it visits the image in raster order and leaves every pixel as the palette colour nearest to its original Lab colour plus the error carried to it, converted to RGB, with alpha kept. |

## Left out

- The numeric bodies of `rgbToLab`, `labToRgb`, `rgbToHsv` and `hsvToRgb` (floating-point formulas) are not modelled. They are arbitrary functions supplied by the caller, so nothing about Lab/HSV round trips is stated.
- The module-level conversion caches in `src/colors.ts` are not modelled: they only remember results of pure functions. `hexToLab` is not modelled either: it only composes `hexToRgb` with a conversion.
- Colors.HexToRgb: strings are modelled as sequences of characters, not of UTF-16 code units, so an input with characters outside the Basic Multilingual Plane has a different length here than in JavaScript and can take a different branch.
- JavaScript numbers are modelled as exact reals. Rounding in the error diffusion is not captured; the whole-error property holds for reals and only approximately for doubles.
- Colors.SquaredDistance: states only non-negativity and zero for identical colours; the converse (zero only for identical colours) is not stated. `Math.sqrt` is omitted because, over exact reals, it is monotone and does not change any comparison; over doubles it can round two different squared distances to one value, and the stable sort then keeps the earlier entry.
- Colors.HexToRgb: requires the characters it parses to be hex digits. Other characters give NaN channels in the source, which the model does not represent.
- Pixels.Pixelator.Read: requires an in-image point. In the source, an out-of-range point reads another pixel's bytes, or yields `undefined` channels outside the array; the scans only read in-image points.
- Pixels.Pixelator.Write: requires an in-image point. In the source, an out-of-range point lands on another pixel's bytes or outside the array; the scans only write in-image points.
- The `Point.join(',')` string keys of the caches and of the carry map are modelled as points. The string key also identifies `-0` with `0`, which no scan produces.
- The `diffMap` memo in `src/dithering.ts` is keyed by palette object identity; the model keys it by palette value and passes it as an object instead of using a module global. Mutating a palette array after a lookup (which would make the source answer stale colours) is not modelled.
- `ImageData` is modelled as a byte array with its width and height, with the buffer length `width*height*4` required. Its values are kept as bytes by `ClampByte`.
- The scans report a thrown `TypeError` as `ok == false`. The partial state at the throw is not kept, except that the buffer is unchanged: the source's Lab cache and memo table are then observable only through the memo, which stays valid.
- The lone-pixel denoise pass (`removeLonePixels`) is not modelled.
- The carry map is never cleared. The code never removes an entry, and it creates keys outside the image (column -1, column `width`, row `height`). The model follows the code (`CarryKeysGrow`, `CarryKeysNearImage`). No such key is ever added to a pixel's colour, because the scan only adjusts in-image points.

=== FILE: colors.dfy ===
/**
  Colour values and the vector helpers of the palette quantiser (src/colors.ts).

  A colour is a triple of channels whose meaning (RGB, HSV or CIE Lab) depends
  on context. The four colour-space conversions are floating-point formulas;
  they are not modelled and are passed around as a `Conversions` record
  instead, so that everything built on them holds for any conversions.
*/
module Colors {
  import opened Wrappers

  datatype Color = Color(c0: real, c1: real, c2: real)

  const Black := Color(0.0, 0.0, 0.0)

  /** The colour space a pixel is read or written in. */
  datatype ColorType = Rgb | Hsv | Lab

  /** rgbToLab, labToRgb, rgbToHsv and hsvToRgb, left uninterpreted. */
  datatype Conversions = Conversions(
    rgbToLab: Color -> Color,
    labToRgb: Color -> Color,
    rgbToHsv: Color -> Color,
    hsvToRgb: Color -> Color)

  /** A channel value that is a whole number in [0, 255]. */
  predicate IsByte(v: real) {
    0.0 <= v <= 255.0 && v.Floor as real == v
  }

  predicate IsByteColor(c: Color) {
    IsByte(c.c0) && IsByte(c.c1) && IsByte(c.c2)
  }

  // ---------------------------------------------------------------------------
  // hexToRgb
  // ---------------------------------------------------------------------------

  predicate IsHexDigit(ch: char) {
    '0' <= ch <= '9' || 'a' <= ch <= 'f' || 'A' <= ch <= 'F'
  }

  /** The value of one hexadecimal digit, upper or lower case. */
  function HexDigitValue(ch: char): (v: nat)
    requires IsHexDigit(ch)
    ensures v < 16
  {
    if '0' <= ch <= '9' then ch as int - '0' as int
    else if 'a' <= ch <= 'f' then ch as int - 'a' as int + 10
    else ch as int - 'A' as int + 10
  }

  /** The number written by the two hex digits `hi` and `lo` (`+"0x" + hi + lo`). */
  function HexPair(hi: char, lo: char): (v: real)
    requires IsHexDigit(hi) && IsHexDigit(lo)
    ensures IsByte(v)
  {
    (16 * HexDigitValue(hi) + HexDigitValue(lo)) as real
  }

  /** The string hexToRgb parses: the first character is dropped when the
      length is 4 or more than 6. */
  function Stripped(hex: string): string {
    if |hex| == 4 || |hex| > 6 then hex[1..] else hex
  }

  /** The characters that hexToRgb actually reads are hex digits. */
  predicate ParsedCharsAreHex(hex: string) {
    var s := Stripped(hex);
    (|s| == 3 ==> IsHexDigit(s[0]) && IsHexDigit(s[1]) && IsHexDigit(s[2])) &&
    (|s| >= 6 ==> forall i | 0 <= i < 6 :: IsHexDigit(s[i]))
  }

  /** hexToRgb: three digits are shorthand (each digit doubled), six or more
      use the first six, any other length silently gives black. */
  function HexToRgb(hex: string): (rgb: Color)
    requires ParsedCharsAreHex(hex)
    ensures IsByteColor(rgb)
  {
    var s := Stripped(hex);
    if |s| == 3 then
      Color(HexPair(s[0], s[0]), HexPair(s[1], s[1]), HexPair(s[2], s[2]))
    else if |s| >= 6 then
      Color(HexPair(s[0], s[1]), HexPair(s[2], s[3]), HexPair(s[4], s[5]))
    else
      Black
  }

  /** Lengths 0, 1, 2 and 5 leave nothing to parse and yield black. */
  lemma HexToRgbMalformedIsBlack(hex: string)
    requires |hex| in {0, 1, 2, 5}
    ensures ParsedCharsAreHex(hex) && HexToRgb(hex) == Black
  {
  }

  /** Which lengths parse at all: after stripping, exactly 3 or at least 6. */
  lemma HexToRgbParsedLengths(hex: string)
    ensures |Stripped(hex)| == 3 <==> |hex| == 3 || |hex| == 4
    ensures |Stripped(hex)| >= 6 <==> |hex| >= 6
    ensures |Stripped(hex)| != 3 && |Stripped(hex)| < 6 <==> |hex| in {0, 1, 2, 5}
  {
  }

  /** Shorthand: every channel is 17 times its digit. */
  lemma HexToRgbShorthand(hex: string)
    requires ParsedCharsAreHex(hex) && |Stripped(hex)| == 3
    ensures var s := Stripped(hex);
      HexToRgb(hex) == Color((17 * HexDigitValue(s[0])) as real,
                             (17 * HexDigitValue(s[1])) as real,
                             (17 * HexDigitValue(s[2])) as real)
  {
  }

  /** Characters after the first six parsed ones are ignored. */
  lemma HexToRgbIgnoresTail(hex: string)
    requires |hex| > 7 && ParsedCharsAreHex(hex)
    ensures ParsedCharsAreHex(hex[..7]) && HexToRgb(hex) == HexToRgb(hex[..7])
  {
    assert Stripped(hex[..7]) == hex[1..7];
    assert forall i | 0 <= i < 6 :: hex[1..7][i] == hex[1..][i];
  }

  lemma HexToRgbExamples()
    ensures ParsedCharsAreHex("#FF0000") && HexToRgb("#FF0000") == Color(255.0, 0.0, 0.0)
    ensures ParsedCharsAreHex("#F00") && HexToRgb("#F00") == Color(255.0, 0.0, 0.0)
    ensures ParsedCharsAreHex("abc") && HexToRgb("abc") == Color(170.0, 187.0, 204.0)
  {
    assert Stripped("#FF0000") == "FF0000";
    assert Stripped("#F00") == "F00";
  }

  /** The lower-case digit for `n`, used to state the parser's inverse. */
  function HexChar(n: nat): (ch: char)
    requires n < 16
    ensures IsHexDigit(ch) && HexDigitValue(ch) == n
  {
    if n < 10 then ('0' as int + n) as char else ('a' as int + n - 10) as char
  }

  /** `#rrggbb` for a byte colour: the formatter hexToRgb inverts. */
  function RgbToHex(r: nat, g: nat, b: nat): (hex: string)
    requires r < 256 && g < 256 && b < 256
    ensures |hex| == 7 && hex[0] == '#'
  {
    ['#', HexChar(r / 16), HexChar(r % 16), HexChar(g / 16), HexChar(g % 16),
     HexChar(b / 16), HexChar(b % 16)]
  }

  /** Parsing a formatted byte colour gives the colour back. */
  lemma HexToRgbInvertsRgbToHex(r: nat, g: nat, b: nat)
    requires r < 256 && g < 256 && b < 256
    ensures ParsedCharsAreHex(RgbToHex(r, g, b))
    ensures HexToRgb(RgbToHex(r, g, b)) == Color(r as real, g as real, b as real)
  {
    var hex := RgbToHex(r, g, b);
    var s := hex[1..];
    assert Stripped(hex) == s;
    assert forall i | 0 <= i < 6 :: IsHexDigit(s[i]);
  }

  /** Parsing `#` followed by three formatted digits gives 17 times each digit. */
  lemma HexToRgbInvertsShorthand(r: nat, g: nat, b: nat)
    requires r < 16 && g < 16 && b < 16
    ensures ParsedCharsAreHex(['#', HexChar(r), HexChar(g), HexChar(b)])
    ensures HexToRgb(['#', HexChar(r), HexChar(g), HexChar(b)])
         == Color((17 * r) as real, (17 * g) as real, (17 * b) as real)
  {
    var hex := ['#', HexChar(r), HexChar(g), HexChar(b)];
    assert Stripped(hex) == [HexChar(r), HexChar(g), HexChar(b)];
  }

  // ---------------------------------------------------------------------------
  // Distance and per-channel arithmetic
  // ---------------------------------------------------------------------------

  /** The square of colorDistance: sqrt is monotone, so comparing squares
      orders colours exactly as comparing distances does. */
  function SquaredDistance(a: Color, b: Color): (d: real)
    ensures d >= 0.0
    ensures a == b ==> d == 0.0
  {
    (b.c0 - a.c0) * (b.c0 - a.c0) + (b.c1 - a.c1) * (b.c1 - a.c1) + (b.c2 - a.c2) * (b.c2 - a.c2)
  }

  lemma SquaredDistanceSymmetric(a: Color, b: Color)
    ensures SquaredDistance(a, b) == SquaredDistance(b, a)
  {
  }

  /** colorDistance([0,0,0], [3,4,0]) is 5. */
  lemma SquaredDistanceExample()
    ensures SquaredDistance(Black, Color(3.0, 4.0, 0.0)) == 5.0 * 5.0
  {
  }

  /** Per-channel sum; subtracting `c2` again gives `c1` back. */
  function AddColors(c1: Color, c2: Color): (r: Color)
    ensures SubtractColors(r, c2) == c1
  {
    Color(c1.c0 + c2.c0, c1.c1 + c2.c1, c1.c2 + c2.c2)
  }

  /** Per-channel difference; it is black exactly when the colours are equal. */
  function SubtractColors(c1: Color, c2: Color): (r: Color)
    ensures r == Black <==> c1 == c2
  {
    Color(c1.c0 - c2.c0, c1.c1 - c2.c1, c1.c2 - c2.c2)
  }

  /** Per-channel scaling; gain 1 keeps the colour and gain 0 gives black. */
  function ColorGain(c: Color, gain: real): (r: Color)
    ensures gain == 1.0 ==> r == c
    ensures gain == 0.0 ==> r == Black
  {
    Color(c.c0 * gain, c.c1 * gain, c.c2 * gain)
  }

  /** Over exact numbers, subtracting undoes adding and vice versa. */
  lemma SubtractUndoesAdd(a: Color, b: Color)
    ensures SubtractColors(AddColors(a, b), b) == a
    ensures AddColors(SubtractColors(a, b), b) == a
  {
  }

  /** Black is the identity of addition. */
  lemma AddBlack(a: Color)
    ensures AddColors(a, Black) == a && AddColors(Black, a) == a
  {
  }

  /** Gain acts channel by channel: it is linear in the colour and in the gain. */
  lemma ColorGainLinear(a: Color, b: Color, g: real, h: real)
    ensures ColorGain(AddColors(a, b), g) == AddColors(ColorGain(a, g), ColorGain(b, g))
    ensures ColorGain(a, g + h) == AddColors(ColorGain(a, g), ColorGain(a, h))
    ensures ColorGain(a, 1.0) == a && ColorGain(a, 0.0) == Black
  {
  }

  // ---------------------------------------------------------------------------
  // closestColor
  // ---------------------------------------------------------------------------

  /** The index that a stable ascending sort by distance puts first. */
  function ClosestIndex(color: Color, palette: seq<Color>): (k: nat)
    requires |palette| > 0
    ensures k < |palette|
    decreases |palette|
  {
    if |palette| == 1 then 0
    else
      var last := |palette| - 1;
      var k := ClosestIndex(color, palette[..last]);
      if SquaredDistance(color, palette[last]) < SquaredDistance(color, palette[k]) then last else k
  }

  /** ClosestIndex is a nearest entry, and the earliest one among equally
      near entries. */
  lemma {:induction false} ClosestIndexIsFirstNearest(color: Color, palette: seq<Color>)
    requires |palette| > 0
    ensures forall j | 0 <= j < |palette| ::
      SquaredDistance(color, palette[ClosestIndex(color, palette)]) <= SquaredDistance(color, palette[j])
    ensures forall j | 0 <= j < ClosestIndex(color, palette) ::
      SquaredDistance(color, palette[j]) > SquaredDistance(color, palette[ClosestIndex(color, palette)])
    decreases |palette|
  {
    if |palette| > 1 {
      var last := |palette| - 1;
      var prefix := palette[..last];
      ClosestIndexIsFirstNearest(color, prefix);
      var k := ClosestIndex(color, prefix);
      assert forall j | 0 <= j < last :: palette[j] == prefix[j];
    }
  }

  /** The two properties of ClosestIndex single out one index. */
  lemma ClosestIndexUnique(color: Color, palette: seq<Color>, k: nat)
    requires k < |palette|
    requires forall j | 0 <= j < |palette| ::
      SquaredDistance(color, palette[k]) <= SquaredDistance(color, palette[j])
    requires forall j | 0 <= j < k ::
      SquaredDistance(color, palette[j]) > SquaredDistance(color, palette[k])
    ensures k == ClosestIndex(color, palette)
  {
    ClosestIndexIsFirstNearest(color, palette);
  }

  /** closestColor; on an empty palette the source fails reading the first
      sorted item, modelled as None. */
  function ClosestColor(color: Color, palette: seq<Color>): (r: Option<Color>)
    ensures r.None? <==> |palette| == 0
    ensures r.Some? ==> r.value in palette
  {
    if |palette| == 0 then None else Some(palette[ClosestIndex(color, palette)])
  }

  /** The colour closestColor returns is at least as near as every palette entry. */
  lemma ClosestColorIsNearest(color: Color, palette: seq<Color>)
    requires |palette| > 0
    ensures forall e | e in palette ::
      SquaredDistance(color, ClosestColor(color, palette).value) <= SquaredDistance(color, e)
  {
    ClosestIndexIsFirstNearest(color, palette);
  }

  /** A colour that is in the palette is matched at distance zero. */
  lemma ClosestColorOfMember(color: Color, palette: seq<Color>)
    requires color in palette
    ensures ClosestColor(color, palette).Some?
    ensures SquaredDistance(color, ClosestColor(color, palette).value) == 0.0
  {
    ClosestColorIsNearest(color, palette);
  }

  lemma ClosestColorExample()
    ensures ClosestColor(Color(10.0, 10.0, 10.0), [Black, Color(255.0, 255.0, 255.0)]) == Some(Black)
  {
    var pal := [Black, Color(255.0, 255.0, 255.0)];
    assert SquaredDistance(Color(10.0, 10.0, 10.0), pal[0]) < SquaredDistance(Color(10.0, 10.0, 10.0), pal[1]);
  }
}

=== FILE: dithering.dfy ===
/**
  The palette-adoption scans of src/dithering.ts: a memoised nearest-colour
  lookup and two in-place raster scans over an RGBA buffer, one plain and one
  with Floyd–Steinberg error diffusion.
*/
module Dithering {
  import opened Wrappers
  import opened Colors
  import opened Pixels
  import opened ScanSpec

  // ---------------------------------------------------------------------------
  // getClosestColor and its diffMap memo
  // ---------------------------------------------------------------------------

  /** The per-palette table the memo holds for `palette`, empty if none yet. */
  function TableOf(memo: map<seq<Color>, map<Color, Color>>, palette: seq<Color>): map<Color, Color> {
    if palette in memo then memo[palette] else map[]
  }

  /** The memo of nearest palette colours, one table per palette. */
  class ClosestColorMemo {
    var memo: map<seq<Color>, map<Color, Color>>

    /** Every remembered answer is the one closestColor gives. */
    ghost predicate Valid()
      reads this
    {
      forall palette, c | palette in memo && c in memo[palette] ::
        |palette| > 0 && memo[palette][c] == ClosestColor(c, palette).value
    }

    constructor ()
      ensures Valid() && memo == map[]
    {
      memo := map[];
    }

    /** getClosestColor: the table for the palette is created first, so it
        exists even when the lookup then fails on an empty palette; a colour
        seen before is answered from the table, a new one is computed and
        remembered. */
    method GetClosestColor(color: Color, palette: seq<Color>) returns (r: Option<Color>)
      requires Valid()
      modifies this
      ensures Valid()
      ensures r == ClosestColor(color, palette)
      ensures color in TableOf(old(memo), palette) ==> memo == old(memo)
      ensures color !in TableOf(old(memo), palette) && r.None? ==>
        memo == old(memo)[palette := TableOf(old(memo), palette)]
      ensures color !in TableOf(old(memo), palette) && r.Some? ==>
        memo == old(memo)[palette := TableOf(old(memo), palette)[color := r.value]]
    {
      if palette !in memo {
        memo := memo[palette := map[]];
      }
      var table := memo[palette];
      if color in table {
        return Some(table[color]);
      }
      r := ClosestColor(color, palette);
      if r.Some? {
        memo := memo[palette := table[color := r.value]];
      }
    }
  }

  /** Asking twice gives the same answer, the closest colour, and afterwards
      the memo holds that answer for the colour. */
  method RepeatedLookup(m: ClosestColorMemo, color: Color, palette: seq<Color>) returns (first: Option<Color>, second: Option<Color>)
    requires m.Valid()
    modifies m
    ensures m.Valid()
    ensures first == second == ClosestColor(color, palette)
    ensures palette in m.memo
    ensures first.Some? ==> color in m.memo[palette] && m.memo[palette][color] == first.value
  {
    first := m.GetClosestColor(color, palette);
    ghost var after := m.memo;
    second := m.GetClosestColor(color, palette);
    assert first.Some? ==> m.memo == after;
  }

  // ---------------------------------------------------------------------------
  // The scans
  // ---------------------------------------------------------------------------

  /** What the plain scan leaves at `q`: the original alpha, and the Lab
      palette colour nearest to the original pixel converted back to RGB. */
  function NoDitherPixel(job: Job, q: Point): Rgba
    requires WellFormed(job) && InImage(job.width, job.height, q) && |job.palette| > 0
  {
    Stored(PixelOf(job.orig, job.width, job.height, q), job.conv.labToRgb(NoDitherChoice(job, q)))
  }

  /** What the error-diffusion scan leaves at `q`. */
  function FsPixel(job: Job, q: Point): Rgba
    requires WellFormed(job) && InImage(job.width, job.height, q) && |job.palette| > 0
  {
    Stored(PixelOf(job.orig, job.width, job.height, q), job.conv.labToRgb(FsChosen(job, q)))
  }

  /** The scans fail, before writing anything, exactly when there is a pixel
      and no palette colour to give it. */
  predicate ScanSucceeds(width: nat, height: nat, palette: seq<Color>) {
    |palette| > 0 || width == 0 || height == 0
  }

  /** The pixels the scan has not reached yet still hold their original value. */
  ghost predicate Untouched(data: seq<int>, job: Job, at: Point)
    requires WellFormed(job) && |data| == |job.orig|
  {
    forall q | InImage(job.width, job.height, q) && !RasterBefore(q, at) ::
      PixelOf(data, job.width, job.height, q) == PixelOf(job.orig, job.width, job.height, q)
  }

  /** The pixels the plain scan has passed hold their final value. */
  ghost predicate NoDitherDone(data: seq<int>, job: Job, at: Point)
    requires WellFormed(job) && |data| == |job.orig|
  {
    forall q | InImage(job.width, job.height, q) && RasterBefore(q, at) ::
      |job.palette| > 0 && PixelOf(data, job.width, job.height, q) == NoDitherPixel(job, q)
  }

  /** The pixels the diffusing scan has passed hold their final value. */
  ghost predicate FsDone(data: seq<int>, job: Job, at: Point)
    requires WellFormed(job) && |data| == |job.orig|
  {
    forall q | InImage(job.width, job.height, q) && RasterBefore(q, at) ::
      |job.palette| > 0 && PixelOf(data, job.width, job.height, q) == FsPixel(job, q)
  }

  /** Only pixels the scan has passed have a cached Lab value. */
  ghost predicate LabCachedBefore(pix: Pixelator, at: Point)
    reads pix
  {
    forall q | q in CacheOf(pix.maps, Lab) :: RasterBefore(q, at)
  }

  /** `pix` is the pixelator of the job's buffer. */
  ghost predicate Scanning(pix: Pixelator, memo: ClosestColorMemo, job: Job)
    reads pix, pix.data, memo
  {
    pix.Valid() && memo.Valid() && WellFormed(job) && pix.data.Length == |job.orig| &&
    pix.width == job.width && pix.height == job.height && pix.conv == job.conv
  }

  /** Inside the image, the end of row `y` and the start of row `y + 1` have
      the same points before them. */
  lemma RowEndIsNextRowStart(job: Job, y: int, q: Point)
    requires InImage(job.width, job.height, q)
    ensures RasterBefore(q, Point(job.width, y)) <==> RasterBefore(q, Point(0, y + 1))
  {
  }

  /** At the end of a row the unvisited pixels are those of the later rows. */
  lemma UntouchedAtRowEnd(data: seq<int>, job: Job, y: int)
    requires WellFormed(job) && |data| == |job.orig|
    requires Untouched(data, job, Point(job.width, y))
    ensures Untouched(data, job, Point(0, y + 1))
  {
    forall q | InImage(job.width, job.height, q) && !RasterBefore(q, Point(0, y + 1))
      ensures PixelOf(data, job.width, job.height, q) == PixelOf(job.orig, job.width, job.height, q)
    {
      RowEndIsNextRowStart(job, y, q);
    }
  }

  /** At the end of a row the plain scan has finished every pixel of the rows
      up to it. */
  lemma NoDitherDoneAtRowEnd(data: seq<int>, job: Job, y: int)
    requires WellFormed(job) && |data| == |job.orig|
    requires NoDitherDone(data, job, Point(job.width, y))
    ensures NoDitherDone(data, job, Point(0, y + 1))
  {
    forall q | InImage(job.width, job.height, q) && RasterBefore(q, Point(0, y + 1))
      ensures |job.palette| > 0 && PixelOf(data, job.width, job.height, q) == NoDitherPixel(job, q)
    {
      RowEndIsNextRowStart(job, y, q);
    }
  }

  /** At the end of a row the diffusing scan has finished every pixel of the
      rows up to it. */
  lemma FsDoneAtRowEnd(data: seq<int>, job: Job, y: int)
    requires WellFormed(job) && |data| == |job.orig|
    requires FsDone(data, job, Point(job.width, y))
    ensures FsDone(data, job, Point(0, y + 1))
  {
    forall q | InImage(job.width, job.height, q) && RasterBefore(q, Point(0, y + 1))
      ensures |job.palette| > 0 && PixelOf(data, job.width, job.height, q) == FsPixel(job, q)
    {
      RowEndIsNextRowStart(job, y, q);
    }
  }

  /** Reading the next pixel of the scan gives the Lab value of its original
      colour, since nothing has written it or cached it yet. */
  method ReadNext(pix: Pixelator, ghost job: Job, p: Point) returns (color: Color)
    requires WellFormed(job) && pix.Valid() && pix.data.Length == |job.orig|
    requires pix.width == job.width && pix.height == job.height && pix.conv == job.conv
    requires InImage(job.width, job.height, p)
    requires LabCachedBefore(pix, p) && Untouched(pix.data[..], job, p)
    modifies pix
    ensures pix.Valid() && LabCachedBefore(pix, Point(p.x + 1, p.y))
    ensures color == OriginalLab(job, p)
  {
    color := pix.Read(p, Lab);
    assert PixelOf(pix.data[..], job.width, job.height, p) == PixelOf(job.orig, job.width, job.height, p);
  }

  /** After the plain scan stores its colour at `p`, the scan has passed `p`. */
  lemma NoDitherAdvance(before: seq<int>, after: seq<int>, job: Job, p: Point)
    requires WellFormed(job) && |before| == |job.orig| && InImage(job.width, job.height, p) && |job.palette| > 0
    requires Untouched(before, job, p) && NoDitherDone(before, job, p)
    requires after == StoreRgb(before, job.width, job.height, p, job.conv.labToRgb(NoDitherChoice(job, p)))
    ensures |after| == |before|
    ensures Untouched(after, job, Point(p.x + 1, p.y)) && NoDitherDone(after, job, Point(p.x + 1, p.y))
  {
    var next := Point(p.x + 1, p.y);
    forall q | InImage(job.width, job.height, q) && !RasterBefore(q, next)
      ensures PixelOf(after, job.width, job.height, q) == PixelOf(job.orig, job.width, job.height, q)
    {
      assert q != p && !RasterBefore(q, p);
    }
    forall q | InImage(job.width, job.height, q) && RasterBefore(q, next)
      ensures |job.palette| > 0 && PixelOf(after, job.width, job.height, q) == NoDitherPixel(job, q)
    {
      if q != p {
        assert RasterBefore(q, p);
      }
    }
  }

  /** One pixel of adoptPaletteNoDither. */
  method NoDitherStep(pix: Pixelator, memo: ClosestColorMemo, palette: seq<Color>, ghost job: Job, p: Point)
    returns (ok: bool)
    requires Scanning(pix, memo, job) && job.palette == palette && InImage(job.width, job.height, p)
    requires LabCachedBefore(pix, p)
    requires Untouched(pix.data[..], job, p) && NoDitherDone(pix.data[..], job, p)
    modifies pix, pix.data, memo
    ensures Scanning(pix, memo, job)
    ensures ok <==> |palette| > 0
    ensures !ok ==> pix.data[..] == old(pix.data[..])
    ensures ok ==> LabCachedBefore(pix, Point(p.x + 1, p.y))
    ensures ok ==> Untouched(pix.data[..], job, Point(p.x + 1, p.y)) && NoDitherDone(pix.data[..], job, Point(p.x + 1, p.y))
  {
    var color := ReadNext(pix, job, p);
    var closest := memo.GetClosestColor(color, palette);
    if closest.None? {
      return false;
    }
    ghost var before := pix.data[..];
    pix.Write(p, closest.value, Lab);
    NoDitherAdvance(before, pix.data[..], job, p);
    ok := true;
  }

  /** One row of adoptPaletteNoDither. */
  method NoDitherRow(pix: Pixelator, memo: ClosestColorMemo, palette: seq<Color>, ghost job: Job, y: int)
    returns (ok: bool, ghost row: seq<Point>)
    requires Scanning(pix, memo, job) && job.palette == palette && 0 <= y < job.height
    requires |palette| > 0 || job.width == 0 || y == 0
    requires LabCachedBefore(pix, Point(0, y))
    requires Untouched(pix.data[..], job, Point(0, y)) && NoDitherDone(pix.data[..], job, Point(0, y))
    modifies pix, pix.data, memo
    ensures Scanning(pix, memo, job)
    ensures ok <==> |palette| > 0 || job.width == 0
    ensures |palette| == 0 ==> pix.data[..] == old(pix.data[..])
    ensures ok ==> row == RowPrefix(job.width, y)
    ensures ok ==> LabCachedBefore(pix, Point(0, y + 1))
    ensures ok ==> Untouched(pix.data[..], job, Point(0, y + 1)) && NoDitherDone(pix.data[..], job, Point(0, y + 1))
  {
    row := [];
    var x := 0;
    while x < pix.width
      invariant 0 <= x <= job.width
      invariant Scanning(pix, memo, job)
      invariant |palette| > 0 || x == 0
      invariant |palette| == 0 ==> pix.data[..] == old(pix.data[..])
      invariant LabCachedBefore(pix, Point(x, y))
      invariant Untouched(pix.data[..], job, Point(x, y)) && NoDitherDone(pix.data[..], job, Point(x, y))
      invariant row == RowPrefix(x, y)
    {
      var p := Point(x, y);
      ok := NoDitherStep(pix, memo, palette, job, p);
      if !ok {
        return;
      }
      row := row + [p];
      assert RowPrefix(x + 1, y) == RowPrefix(x, y) + [p];
      x := x + 1;
    }
    UntouchedAtRowEnd(pix.data[..], job, y);
    NoDitherDoneAtRowEnd(pix.data[..], job, y);
    ok := true;
  }

  /** adoptPaletteNoDither: every pixel, row by row, becomes the Lab palette
      colour nearest to it. `ok` is false where the source throws on an empty
      palette; the buffer is then untouched. `trace` lists the points visited. */
  method AdoptPaletteNoDither(data: array<int>, width: nat, height: nat, palette: seq<Color>, conv: Conversions,
                              memo: ClosestColorMemo)
    returns (ok: bool, ghost trace: seq<Point>)
    requires data.Length == width * height * 4 && BytesInRange(data[..]) && memo.Valid()
    modifies data, memo
    ensures memo.Valid()
    ensures ok <==> ScanSucceeds(width, height, palette)
    ensures !ok ==> data[..] == old(data[..])
    ensures ok ==> trace == RasterOrder(width, height)
    ensures ok ==> forall q | InImage(width, height, q) ::
      PixelOf(data[..], width, height, q) == NoDitherPixel(Job(old(data[..]), width, height, palette, conv), q)
  {
    ghost var job := Job(data[..], width, height, palette, conv);
    var pix := new Pixelator(data, width, height, conv);
    trace := [];
    var y := 0;
    while y < height
      invariant 0 <= y <= height
      invariant Scanning(pix, memo, job) && pix.data == data
      invariant |palette| > 0 || width == 0 || y == 0
      invariant |palette| == 0 ==> data[..] == job.orig
      invariant LabCachedBefore(pix, Point(0, y))
      invariant Untouched(data[..], job, Point(0, y)) && NoDitherDone(data[..], job, Point(0, y))
      invariant trace == RasterOrder(width, y)
    {
      var rowOk, row := NoDitherRow(pix, memo, palette, job, y);
      if !rowOk {
        return false, trace;
      }
      trace := trace + row;
      y := y + 1;
    }
    ok := true;
  }

  /** The four carry updates made after quantising `p`: each neighbour's
      entry, or black if it has none, grows by its share of `diff`. */
  method DistributeError(carryOvers: map<Point, Color>, p: Point, diff: Color) returns (carry: map<Point, Color>)
    ensures carry == Diffuse(carryOvers, p, diff)
  {
    carry := carryOvers;

    var next := Point(p.x + 1, p.y);
    var qError := if next in carry then carry[next] else Black;
    qError := AddColors(qError, ColorGain(diff, 7.0 / 16.0));
    carry := carry[next := qError];

    next := Point(p.x + 1, p.y + 1);
    qError := if next in carry then carry[next] else Black;
    qError := AddColors(qError, ColorGain(diff, 1.0 / 16.0));
    carry := carry[next := qError];

    next := Point(p.x, p.y + 1);
    qError := if next in carry then carry[next] else Black;
    qError := AddColors(qError, ColorGain(diff, 5.0 / 16.0));
    carry := carry[next := qError];

    next := Point(p.x - 1, p.y + 1);
    qError := if next in carry then carry[next] else Black;
    qError := AddColors(qError, ColorGain(diff, 3.0 / 16.0));
    carry := carry[next := qError];
  }

  /** After the diffusing scan stores its colour at `p`, the scan has passed `p`. */
  lemma FsAdvance(before: seq<int>, after: seq<int>, job: Job, p: Point)
    requires WellFormed(job) && |before| == |job.orig| && InImage(job.width, job.height, p) && |job.palette| > 0
    requires Untouched(before, job, p) && FsDone(before, job, p)
    requires after == StoreRgb(before, job.width, job.height, p, job.conv.labToRgb(FsChosen(job, p)))
    ensures |after| == |before|
    ensures Untouched(after, job, Point(p.x + 1, p.y)) && FsDone(after, job, Point(p.x + 1, p.y))
  {
    var next := Point(p.x + 1, p.y);
    forall q | InImage(job.width, job.height, q) && !RasterBefore(q, next)
      ensures PixelOf(after, job.width, job.height, q) == PixelOf(job.orig, job.width, job.height, q)
    {
      assert q != p && !RasterBefore(q, p);
    }
    forall q | InImage(job.width, job.height, q) && RasterBefore(q, next)
      ensures |job.palette| > 0 && PixelOf(after, job.width, job.height, q) == FsPixel(job, q)
    {
      if q != p {
        assert RasterBefore(q, p);
      }
    }
  }

  /** The choice made for the next pixel of the diffusing scan: its colour
      plus its carry is quantised, and the error is carried on. Nothing is
      written yet. */
  method FsQuantise(pix: Pixelator, memo: ClosestColorMemo, palette: seq<Color>, ghost job: Job, p: Point,
                    carryOvers: map<Point, Color>)
    returns (closest: Option<Color>, carry: map<Point, Color>)
    requires Scanning(pix, memo, job) && job.palette == palette && InImage(job.width, job.height, p)
    requires ScanPosition(job, p.x, p.y) && carryOvers == CarryBefore(job, p.x, p.y)
    requires LabCachedBefore(pix, p) && Untouched(pix.data[..], job, p)
    modifies pix, memo
    ensures Scanning(pix, memo, job) && LabCachedBefore(pix, Point(p.x + 1, p.y))
    ensures closest.Some? <==> |palette| > 0
    ensures closest.Some? ==> closest.value == FsChosen(job, p)
    ensures closest.Some? ==> ScanPosition(job, p.x + 1, p.y) && carry == CarryBefore(job, p.x + 1, p.y)
  {
    var color := ReadNext(pix, job, p);
    if p in carryOvers {
      color := AddColors(color, carryOvers[p]);
    }
    closest := memo.GetClosestColor(color, palette);
    if closest.None? {
      return closest, carryOvers;
    }
    var diff := SubtractColors(color, closest.value);
    carry := DistributeError(carryOvers, p, diff);
    CarryAfterDiffuses(job, p.x, p.y);
    CarryBeforeStep(job, p.x + 1, p.y);
  }

  /** One pixel of adoptPaletteFloydSteinbergDither. */
  method FsStep(pix: Pixelator, memo: ClosestColorMemo, palette: seq<Color>, ghost job: Job, p: Point,
                carryOvers: map<Point, Color>)
    returns (ok: bool, carry: map<Point, Color>)
    requires Scanning(pix, memo, job) && job.palette == palette && InImage(job.width, job.height, p)
    requires ScanPosition(job, p.x, p.y) && carryOvers == CarryBefore(job, p.x, p.y)
    requires LabCachedBefore(pix, p)
    requires Untouched(pix.data[..], job, p) && FsDone(pix.data[..], job, p)
    modifies pix, pix.data, memo
    ensures Scanning(pix, memo, job)
    ensures ok <==> |palette| > 0
    ensures !ok ==> pix.data[..] == old(pix.data[..])
    ensures ok ==> ScanPosition(job, p.x + 1, p.y) && carry == CarryBefore(job, p.x + 1, p.y)
    ensures ok ==> LabCachedBefore(pix, Point(p.x + 1, p.y))
    ensures ok ==> Untouched(pix.data[..], job, Point(p.x + 1, p.y)) && FsDone(pix.data[..], job, Point(p.x + 1, p.y))
  {
    var closest;
    closest, carry := FsQuantise(pix, memo, palette, job, p, carryOvers);
    if closest.None? {
      return false, carry;
    }
    ghost var before := pix.data[..];
    pix.Write(p, closest.value, Lab);
    FsAdvance(before, pix.data[..], job, p);
    ok := true;
  }

  /** One row of adoptPaletteFloydSteinbergDither; the row starts with the
      carry map `carryOvers` and ends with `carry`. */
  method FsRow(pix: Pixelator, memo: ClosestColorMemo, palette: seq<Color>, ghost job: Job, y: int,
               carryOvers: map<Point, Color>)
    returns (ok: bool, carry: map<Point, Color>, ghost row: seq<Point>)
    requires Scanning(pix, memo, job) && job.palette == palette && 0 <= y < job.height
    requires ScanPosition(job, 0, y) && carryOvers == CarryBefore(job, 0, y)
    requires LabCachedBefore(pix, Point(0, y))
    requires Untouched(pix.data[..], job, Point(0, y)) && FsDone(pix.data[..], job, Point(0, y))
    modifies pix, pix.data, memo
    ensures Scanning(pix, memo, job)
    ensures ok <==> |palette| > 0 || job.width == 0
    ensures |palette| == 0 ==> pix.data[..] == old(pix.data[..])
    ensures ok ==> ScanPosition(job, job.width, y) && carry == CarryBefore(job, job.width, y)
    ensures ok ==> row == RowPrefix(job.width, y)
    ensures ok ==> LabCachedBefore(pix, Point(0, y + 1))
    ensures ok ==> Untouched(pix.data[..], job, Point(0, y + 1)) && FsDone(pix.data[..], job, Point(0, y + 1))
  {
    carry := carryOvers;
    row := [];
    var x := 0;
    while x < pix.width
      invariant 0 <= x <= job.width
      invariant Scanning(pix, memo, job)
      invariant ScanPosition(job, x, y) && carry == CarryBefore(job, x, y)
      invariant |palette| == 0 ==> pix.data[..] == old(pix.data[..])
      invariant LabCachedBefore(pix, Point(x, y))
      invariant Untouched(pix.data[..], job, Point(x, y)) && FsDone(pix.data[..], job, Point(x, y))
      invariant row == RowPrefix(x, y)
    {
      var p := Point(x, y);
      ok, carry := FsStep(pix, memo, palette, job, p, carry);
      if !ok {
        return;
      }
      row := row + [p];
      assert RowPrefix(x + 1, y) == RowPrefix(x, y) + [p];
      x := x + 1;
    }
    UntouchedAtRowEnd(pix.data[..], job, y);
    FsDoneAtRowEnd(pix.data[..], job, y);
    ok := true;
  }

  /** adoptPaletteFloydSteinbergDither: as the plain scan, but each pixel's
      colour first receives the error carried to it from earlier pixels, and
      its own quantisation error is carried on to four later neighbours. */
  method AdoptPaletteFloydSteinbergDither(data: array<int>, width: nat, height: nat, palette: seq<Color>,
                                          conv: Conversions, memo: ClosestColorMemo)
    returns (ok: bool, ghost trace: seq<Point>)
    requires data.Length == width * height * 4 && BytesInRange(data[..]) && memo.Valid()
    modifies data, memo
    ensures memo.Valid()
    ensures ok <==> ScanSucceeds(width, height, palette)
    ensures !ok ==> data[..] == old(data[..])
    ensures ok ==> trace == RasterOrder(width, height)
    ensures ok ==> forall q | InImage(width, height, q) ::
      PixelOf(data[..], width, height, q) == FsPixel(Job(old(data[..]), width, height, palette, conv), q)
  {
    ghost var job := Job(data[..], width, height, palette, conv);
    var carryOvers: map<Point, Color> := map[];
    var pix := new Pixelator(data, width, height, conv);
    trace := [];
    var y := 0;
    while y < height
      invariant 0 <= y <= height
      invariant Scanning(pix, memo, job) && pix.data == data
      invariant ScanPosition(job, 0, y) && carryOvers == CarryBefore(job, 0, y)
      invariant |palette| == 0 ==> data[..] == job.orig
      invariant LabCachedBefore(pix, Point(0, y))
      invariant Untouched(data[..], job, Point(0, y)) && FsDone(data[..], job, Point(0, y))
      invariant trace == RasterOrder(width, y)
    {
      var rowOk, carry, row := FsRow(pix, memo, palette, job, y, carryOvers);
      if !rowOk {
        return false, trace;
      }
      carryOvers := carry;
      CarryBeforeRowStart(job, y + 1);
      trace := trace + row;
      y := y + 1;
    }
    ok := true;
  }
}

=== FILE: pixelator.dfy ===
/**
  The pixel accessor of the quantiser (src/pixelator.ts): a view of a flat,
  row-major RGBA byte buffer with one read cache per colour space.

  The buffer is the `data` array of the host's ImageData. Storing a number into
  it goes through the clamped-byte conversion of a Uint8ClampedArray, written
  out here as ClampByte.
*/
module Pixels {
  import opened Wrappers
  import opened Colors

  datatype Point = Point(x: int, y: int)

  /** The four bytes of one pixel. */
  datatype Rgba = Rgba(r: int, g: int, b: int, a: int)

  predicate InImage(width: int, height: int, p: Point) {
    0 <= p.x < width && 0 <= p.y < height
  }

  /** Index of the red byte of `p`: `y * width * 4 + x * 4`. */
  function Offset(width: int, p: Point): int {
    p.y * width * 4 + p.x * 4
  }

  predicate BytesInRange(s: seq<int>) {
    forall i | 0 <= i < |s| :: 0 <= s[i] <= 255
  }

  // ---------------------------------------------------------------------------
  // Offset arithmetic
  // ---------------------------------------------------------------------------

  /** Rows are `width` apart: a lower row ends before a higher one starts. */
  lemma RowsApart(y1: int, y2: int, width: int)
    requires 0 <= y1 < y2 && width >= 0
    ensures y1 * width + width <= y2 * width
  {
    var d := y2 - y1;
    assert d * width >= width by {
      if width > 0 { assert d >= 1; }
    }
    assert y2 * width == y1 * width + d * width;
  }

  lemma MulCancelLess(a: int, b: int, w: int)
    requires w > 0 && a * w < b * w
    ensures a < b
  {
  }

  /** The four bytes of an in-image point lie inside the buffer. */
  lemma OffsetInBuffer(width: nat, height: nat, p: Point)
    requires InImage(width, height, p)
    ensures 0 <= Offset(width, p)
    ensures Offset(width, p) + 4 <= width * height * 4
  {
    assert 0 <= p.y * width;
    if p.y + 1 < height {
      RowsApart(p.y + 1, height, width);
    }
    assert (p.y + 1) * width == p.y * width + width;
    assert width * height == height * width;
  }

  /** Distinct in-image points occupy disjoint four-byte slots. */
  lemma SlotsApart(width: nat, height: nat, p: Point, q: Point)
    requires InImage(width, height, p) && InImage(width, height, q) && p != q
    ensures Offset(width, p) + 4 <= Offset(width, q) || Offset(width, q) + 4 <= Offset(width, p)
  {
    var kp, kq := p.y * width + p.x, q.y * width + q.x;
    assert Offset(width, p) == 4 * kp && Offset(width, q) == 4 * kq;
    if p.y < q.y {
      RowsApart(p.y, q.y, width);
    } else if q.y < p.y {
      RowsApart(q.y, p.y, width);
    }
    assert kp != kq;
  }

  /** Every byte of a buffer of `width * height` pixels belongs to some pixel. */
  lemma ByteInSomePixel(width: nat, height: nat, i: int) returns (p: Point, j: int)
    requires 0 <= i < width * height * 4
    ensures InImage(width, height, p) && 0 <= j < 4 && i == Offset(width, p) + j
  {
    var k := i / 4;
    var y := k / width;
    var x := k % width;
    assert k == y * width + x;
    assert y * width < height * width;
    MulCancelLess(y, height, width);
    p, j := Point(x, y), i % 4;
  }

  // ---------------------------------------------------------------------------
  // Byte-level view of a buffer
  // ---------------------------------------------------------------------------

  function PixelOf(s: seq<int>, width: nat, height: nat, p: Point): Rgba
    requires |s| == width * height * 4 && InImage(width, height, p)
  {
    OffsetInBuffer(width, height, p);
    var o := Offset(width, p);
    Rgba(s[o], s[o + 1], s[o + 2], s[o + 3])
  }

  /** The red, green and blue bytes of `p` as a colour. */
  function RawRgb(s: seq<int>, width: nat, height: nat, p: Point): (c: Color)
    requires |s| == width * height * 4 && InImage(width, height, p)
    ensures BytesInRange(s) ==> IsByteColor(c)
  {
    OffsetInBuffer(width, height, p);
    var px := PixelOf(s, width, height, p);
    Color(px.r as real, px.g as real, px.b as real)
  }

  /** The ToUint8Clamp conversion of a Uint8ClampedArray store: clamp to
      [0, 255], round to nearest, ties to even. */
  function ClampByte(v: real): (b: int)
    ensures 0 <= b <= 255
    ensures v <= 0.0 ==> b == 0
    ensures v >= 255.0 ==> b == 255
    ensures 0.0 <= v <= 255.0 ==> -0.5 <= b as real - v <= 0.5
    ensures IsByte(v) ==> b as real == v
  {
    if v <= 0.0 then 0
    else if v >= 255.0 then 255
    else
      var f := v.Floor;
      if f as real + 0.5 < v then f + 1
      else if v < f as real + 0.5 then f
      else if f % 2 == 0 then f
      else f + 1
  }

  /** A pixel after its colour bytes are overwritten with `rgb`. */
  function Stored(px: Rgba, rgb: Color): Rgba {
    Rgba(ClampByte(rgb.c0), ClampByte(rgb.c1), ClampByte(rgb.c2), px.a)
  }

  /** The buffer after `rgb` is stored at `p`: the three colour bytes of `p`
      change, its alpha byte and every other pixel do not. */
  function StoreRgb(s: seq<int>, width: nat, height: nat, p: Point, rgb: Color): (s': seq<int>)
    requires |s| == width * height * 4 && InImage(width, height, p)
    ensures |s'| == |s|
    ensures BytesInRange(s) ==> BytesInRange(s')
    ensures PixelOf(s', width, height, p) == Stored(PixelOf(s, width, height, p), rgb)
    ensures forall q | InImage(width, height, q) && q != p ::
      PixelOf(s', width, height, q) == PixelOf(s, width, height, q)
  {
    OffsetInBuffer(width, height, p);
    var o := Offset(width, p);
    var s' := s[o := ClampByte(rgb.c0)][o + 1 := ClampByte(rgb.c1)][o + 2 := ClampByte(rgb.c2)];
    assert forall q | InImage(width, height, q) && q != p ::
      PixelOf(s', width, height, q) == PixelOf(s, width, height, q) by {
      forall q | InImage(width, height, q) && q != p
        ensures PixelOf(s', width, height, q) == PixelOf(s, width, height, q)
      {
        OffsetInBuffer(width, height, q);
        SlotsApart(width, height, p, q);
      }
    }
    s'
  }

  /** Storing a byte colour and reading the colour bytes back gives it again. */
  lemma RawRgbAfterStore(s: seq<int>, width: nat, height: nat, p: Point, rgb: Color)
    requires |s| == width * height * 4 && InImage(width, height, p)
    requires IsByteColor(rgb)
    ensures RawRgb(StoreRgb(s, width, height, p, rgb), width, height, p) == rgb
  {
  }

  /** Storing the colour bytes just read leaves the buffer as it was. */
  lemma StoreRawRgbIsIdentity(s: seq<int>, width: nat, height: nat, p: Point)
    requires |s| == width * height * 4 && InImage(width, height, p) && BytesInRange(s)
    ensures StoreRgb(s, width, height, p, RawRgb(s, width, height, p)) == s
  {
    OffsetInBuffer(width, height, p);
    var o := Offset(width, p);
    assert IsByte(s[o] as real) && IsByte(s[o + 1] as real) && IsByte(s[o + 2] as real);
  }

  // ---------------------------------------------------------------------------
  // Colour spaces at the buffer boundary
  // ---------------------------------------------------------------------------

  /** The colour `read` returns for raw bytes `rgb` in colour space `t`. */
  function Convert(conv: Conversions, t: ColorType, rgb: Color): Color {
    match t
    case Rgb => rgb
    case Lab => conv.rgbToLab(rgb)
    case Hsv => conv.rgbToHsv(rgb)
  }

  /** The RGB colour `write` stores for `value` given in colour space `t`. */
  function ToRgb(conv: Conversions, t: ColorType, value: Color): Color {
    match t
    case Rgb => value
    case Lab => conv.labToRgb(value)
    case Hsv => conv.hsvToRgb(value)
  }

  /** The read cache of colour space `t`; a space never read has none. */
  function CacheOf(maps: map<ColorType, map<Point, Color>>, t: ColorType): map<Point, Color> {
    if t in maps then maps[t] else map[]
  }

  // ---------------------------------------------------------------------------
  // The accessor
  // ---------------------------------------------------------------------------

  class Pixelator {
    const data: array<int>
    const width: nat
    const height: nat
    const conv: Conversions
    /** One cache per colour space, from point to the colour first read there. */
    var maps: map<ColorType, map<Point, Color>>

    ghost predicate Valid()
      reads this, data
    {
      data.Length == width * height * 4 && BytesInRange(data[..])
    }

    constructor (data: array<int>, width: nat, height: nat, conv: Conversions)
      requires data.Length == width * height * 4 && BytesInRange(data[..])
      ensures Valid()
      ensures this.data == data && this.width == width && this.height == height && this.conv == conv
      ensures maps == map[]
    {
      this.data := data;
      this.width := width;
      this.height := height;
      this.conv := conv;
      maps := map[];
    }

    /** The cache of colour space `t`, created empty on first use. */
    method InitMap(t: ColorType) returns (m: map<Point, Color>)
      modifies this
      ensures maps == if t in old(maps) then old(maps) else old(maps)[t := map[]]
      ensures t in maps && m == maps[t] && m == CacheOf(old(maps), t)
    {
      if t !in maps {
        maps := maps[t := map[]];
      }
      m := maps[t];
    }

    /** A cache lookup: the cached colour of `p` when there is one, otherwise None. */
    static function GetPixel(m: map<Point, Color>, p: Point): Option<Color> {
      if p in m then Some(m[p]) else None
    }

    method SetPixel(t: ColorType, p: Point, value: Color)
      requires t in maps
      modifies this
      ensures maps == old(maps)[t := old(maps)[t][p := value]]
    {
      maps := maps[t := maps[t][p := value]];
    }

    /** The colour of `p` in space `t`: the cached one if `p` was read in `t`
        before, otherwise the converted buffer bytes, which are then cached.
        Only the cache of `t` changes; the buffer does not. */
    method Read(p: Point, t: ColorType) returns (c: Color)
      requires Valid() && InImage(width, height, p)
      modifies this
      ensures Valid()
      ensures t in maps && p in maps[t] && maps[t][p] == c
      ensures p in CacheOf(old(maps), t) ==> c == CacheOf(old(maps), t)[p] && maps == old(maps)
      ensures p !in CacheOf(old(maps), t) ==>
        c == Convert(conv, t, RawRgb(data[..], width, height, p)) &&
        maps == old(maps)[t := CacheOf(old(maps), t)[p := c]]
      ensures t == Rgb && p !in CacheOf(old(maps), t) ==> IsByteColor(c)
    {
      var m := InitMap(t);
      var cached := GetPixel(m, p);
      if cached.Some? {
        return cached.value;
      }
      OffsetInBuffer(width, height, p);
      var raw := data;
      var o := p.y * width * 4 + p.x * 4;
      var rgb := Color(raw[o] as real, raw[o + 1] as real, raw[o + 2] as real);
      match t {
        case Rgb => c := rgb;
        case Lab => c := conv.rgbToLab(rgb);
        case Hsv => c := conv.rgbToHsv(rgb);
      }
      SetPixel(t, p, c);
    }

    /** Stores `value`, given in space `t`, as the RGB bytes of `p`. Alpha is
        kept, and no cache is touched, so earlier reads of `p` stay cached. */
    method Write(p: Point, value: Color, t: ColorType)
      requires Valid() && InImage(width, height, p)
      modifies data
      ensures Valid() && maps == old(maps)
      ensures data[..] == StoreRgb(old(data[..]), width, height, p, ToRgb(conv, t, value))
    {
      var rgb := value;
      match t {
        case Hsv => rgb := conv.hsvToRgb(value);
        case Lab => rgb := conv.labToRgb(value);
        case Rgb =>
      }
      OffsetInBuffer(width, height, p);
      var raw := data;
      var o := p.y * width * 4 + p.x * 4;
      raw[o] := ClampByte(rgb.c0);
      raw[o + 1] := ClampByte(rgb.c1);
      raw[o + 2] := ClampByte(rgb.c2);
    }
  }

  /** getPixel sees setPixel: after recording `v` at `p`, the lookup of `p`
      hits with `v`, and every other point looks up as before. */
  lemma GetPixelSeesSetPixel(m: map<Point, Color>, p: Point, v: Color, q: Point)
    ensures Pixelator.GetPixel(m[p := v], p) == Some(v)
    ensures q != p ==> Pixelator.GetPixel(m[p := v], q) == Pixelator.GetPixel(m, q)
  {
  }

  /** A read that follows a write to the same point returns what the first
      read cached, not what was written. */
  method StaleReadAfterWrite(pix: Pixelator, p: Point, value: Color, t: ColorType)
    returns (first: Color, second: Color)
    requires pix.Valid() && InImage(pix.width, pix.height, p)
    modifies pix, pix.data
    ensures pix.data[..] == StoreRgb(old(pix.data[..]), pix.width, pix.height, p, ToRgb(pix.conv, t, value))
    ensures second == first
  {
    first := pix.Read(p, t);
    pix.Write(p, value, t);
    second := pix.Read(p, t);
  }
}

=== FILE: scan_spec.dfy ===
/**
  What the two palette-adoption scans of src/dithering.ts compute, stated as
  functions of the original buffer, and the ordering facts that make the
  in-place scans agree with them.

  Both scans visit the image row by row, top to bottom and left to right. The
  Floyd–Steinberg scan (Floyd and Steinberg, 1976) carries each pixel's
  quantisation error forward to four neighbours in a sparse map keyed by point;
  `CarryBefore` is that map at the moment the scan reaches a point.
*/
module ScanSpec {
  import opened Wrappers
  import opened Colors
  import opened Pixels

  // ---------------------------------------------------------------------------
  // Raster order
  // ---------------------------------------------------------------------------

  /** `p` comes strictly before `q` in row-major order. */
  predicate RasterBefore(p: Point, q: Point) {
    p.y < q.y || (p.y == q.y && p.x < q.x)
  }

  /** The first `n` points of row `y`. */
  function RowPrefix(n: nat, y: int): seq<Point> {
    seq(n, i => Point(i, y))
  }

  /** The points of the first `rows` rows, in the order the scans visit them. */
  function RasterOrder(width: nat, rows: nat): seq<Point> {
    if rows == 0 then [] else RasterOrder(width, rows - 1) + RowPrefix(width, rows - 1)
  }

  /** The scan order visits exactly the points of the image. */
  lemma {:induction false} RasterOrderMembers(width: nat, rows: nat, q: Point)
    ensures q in RasterOrder(width, rows) <==> InImage(width, rows, q)
  {
    if rows > 0 {
      RasterOrderMembers(width, rows - 1, q);
      var row := RowPrefix(width, rows - 1);
      assert q in row <==> 0 <= q.x < width && q.y == rows - 1 by {
        if 0 <= q.x < width && q.y == rows - 1 {
          assert row[q.x] == q;
        }
      }
    }
  }

  /** The scan order is strictly increasing, so no point is visited twice. */
  lemma {:induction false} RasterOrderIncreasing(width: nat, rows: nat)
    ensures forall i, j | 0 <= i < j < |RasterOrder(width, rows)| ::
      RasterBefore(RasterOrder(width, rows)[i], RasterOrder(width, rows)[j])
  {
    if rows > 0 {
      RasterOrderIncreasing(width, rows - 1);
      var prefix := RasterOrder(width, rows - 1);
      forall k | 0 <= k < |prefix| ensures prefix[k].y < rows - 1 {
        assert prefix[k] in prefix;
        RasterOrderMembers(width, rows - 1, prefix[k]);
      }
    }
  }

  /** The scan order has one entry per pixel. */
  lemma {:induction false} RasterOrderLength(width: nat, rows: nat)
    ensures |RasterOrder(width, rows)| == width * rows
  {
    if rows > 0 {
      RasterOrderLength(width, rows - 1);
      assert width * rows == width * (rows - 1) + width;
    }
  }

  // ---------------------------------------------------------------------------
  // The input of one scan
  // ---------------------------------------------------------------------------

  /** The original buffer, its dimensions, the palette and the conversions. */
  datatype Job = Job(orig: seq<int>, width: nat, height: nat, palette: seq<Color>, conv: Conversions)

  predicate WellFormed(job: Job) {
    |job.orig| == job.width * job.height * 4
  }

  /** The Lab colour of `p` in the original buffer. */
  function OriginalLab(job: Job, p: Point): Color
    requires WellFormed(job) && InImage(job.width, job.height, p)
  {
    job.conv.rgbToLab(RawRgb(job.orig, job.width, job.height, p))
  }

  // ---------------------------------------------------------------------------
  // No dithering
  // ---------------------------------------------------------------------------

  /** The palette colour the plain scan gives `p`: the one nearest, in Lab,
      to the pixel's original colour. */
  function NoDitherChoice(job: Job, p: Point): Color
    requires WellFormed(job) && InImage(job.width, job.height, p) && |job.palette| > 0
  {
    ClosestColor(OriginalLab(job, p), job.palette).value
  }

  /** The plain scan's colour is a palette entry no farther than any other. */
  lemma NoDitherChoiceIsNearest(job: Job, p: Point)
    requires WellFormed(job) && InImage(job.width, job.height, p) && |job.palette| > 0
    ensures NoDitherChoice(job, p) in job.palette
    ensures forall e | e in job.palette ::
      SquaredDistance(OriginalLab(job, p), NoDitherChoice(job, p)) <= SquaredDistance(OriginalLab(job, p), e)
  {
    ClosestColorIsNearest(OriginalLab(job, p), job.palette);
  }

  // ---------------------------------------------------------------------------
  // Floyd–Steinberg error diffusion
  // ---------------------------------------------------------------------------

  /** The carry recorded for `q`, black when there is none (`get(k) || [0,0,0]`). */
  function CarryAt(carry: map<Point, Color>, q: Point): Color {
    if q in carry then carry[q] else Black
  }

  /** A pixel's colour plus the carry recorded for it, if any. */
  function Adjusted(color: Color, carry: map<Point, Color>, p: Point): Color {
    if p in carry then AddColors(color, carry[p]) else color
  }

  /** One carry update: the target's entry becomes its previous value (or
      black) plus `weight` times the error. */
  function Accumulate(carry: map<Point, Color>, target: Point, diff: Color, weight: real): map<Point, Color> {
    carry[target := AddColors(CarryAt(carry, target), ColorGain(diff, weight))]
  }

  /** The four updates made after quantising `p`, in the source's order. */
  function Diffuse(carry: map<Point, Color>, p: Point, diff: Color): map<Point, Color> {
    var c1 := Accumulate(carry, Point(p.x + 1, p.y), diff, 7.0 / 16.0);
    var c2 := Accumulate(c1, Point(p.x + 1, p.y + 1), diff, 1.0 / 16.0);
    var c3 := Accumulate(c2, Point(p.x, p.y + 1), diff, 5.0 / 16.0);
    Accumulate(c3, Point(p.x - 1, p.y + 1), diff, 3.0 / 16.0)
  }

  /** The four neighbours that receive a share of `p`'s error. */
  function KernelTargets(p: Point): set<Point> {
    {Point(p.x + 1, p.y), Point(p.x + 1, p.y + 1), Point(p.x, p.y + 1), Point(p.x - 1, p.y + 1)}
  }

  /** The share of `p`'s error that the kernel hands to `q`. */
  function KernelWeight(p: Point, q: Point): real {
    if q == Point(p.x + 1, p.y) then 7.0 / 16.0
    else if q == Point(p.x + 1, p.y + 1) then 1.0 / 16.0
    else if q == Point(p.x, p.y + 1) then 5.0 / 16.0
    else if q == Point(p.x - 1, p.y + 1) then 3.0 / 16.0
    else 0.0
  }

  /** The palette colour chosen for `p` given the carry map at that moment. */
  function FsChoice(job: Job, carry: map<Point, Color>, p: Point): Color
    requires WellFormed(job) && InImage(job.width, job.height, p) && |job.palette| > 0
  {
    ClosestColor(Adjusted(OriginalLab(job, p), carry, p), job.palette).value
  }

  /** The diffusing scan's colour is a palette entry no farther than any
      other from the pixel's colour plus its carry. */
  lemma FsChoiceIsNearest(job: Job, carry: map<Point, Color>, p: Point)
    requires WellFormed(job) && InImage(job.width, job.height, p) && |job.palette| > 0
    ensures FsChoice(job, carry, p) in job.palette
    ensures forall e | e in job.palette ::
      SquaredDistance(Adjusted(OriginalLab(job, p), carry, p), FsChoice(job, carry, p))
        <= SquaredDistance(Adjusted(OriginalLab(job, p), carry, p), e)
  {
    ClosestColorIsNearest(Adjusted(OriginalLab(job, p), carry, p), job.palette);
  }

  /** The quantisation error at `p`: adjusted colour minus chosen colour. */
  function QuantError(job: Job, carry: map<Point, Color>, p: Point): Color
    requires WellFormed(job) && InImage(job.width, job.height, p) && |job.palette| > 0
  {
    SubtractColors(Adjusted(OriginalLab(job, p), carry, p), FsChoice(job, carry, p))
  }

  /** `(x, y)` is a point the scan reaches: a point of a row of the image, the
      end of such a row (`x == width`), or the end of the image `(0, height)`.
      With an empty palette the scan cannot get past its first pixel. */
  predicate ScanPosition(job: Job, x: int, y: int) {
    0 <= y <= job.height && 0 <= x <= job.width && (y < job.height || x == 0) &&
    (|job.palette| > 0 || job.width == 0 || (x == 0 && y == 0))
  }

  /** The carry map when the scan reaches `(x, y)`. */
  function CarryBefore(job: Job, x: int, y: int): map<Point, Color>
    requires WellFormed(job) && ScanPosition(job, x, y)
    decreases y, x, 0, 0
  {
    if x > 0 then CarryAfter(job, x - 1, y)
    else if y > 0 then CarryBefore(job, job.width, y - 1)
    else map[]
  }

  /** The palette colour the error-diffusion scan writes at `p`. */
  function FsChosen(job: Job, p: Point): Color
    requires WellFormed(job) && InImage(job.width, job.height, p) && |job.palette| > 0
    decreases p.y, p.x, 1, 0
  {
    FsChoice(job, CarryBefore(job, p.x, p.y), p)
  }

  /** The quantisation error the scan computes at pixel `(x, y)`. */
  function ErrorAt(job: Job, x: int, y: int): Color
    requires WellFormed(job) && InImage(job.width, job.height, Point(x, y)) && |job.palette| > 0
    decreases y, x, 2, 0
  {
    SubtractColors(Adjusted(OriginalLab(job, Point(x, y)), CarryBefore(job, x, y), Point(x, y)), FsChosen(job, Point(x, y)))
  }

  /** The `k`-th neighbour (1 to 4) that receives a share of `p`'s error, in
      the order the source updates them. */
  function KernelTap(p: Point, k: int): Point {
    if k == 1 then Point(p.x + 1, p.y)
    else if k == 2 then Point(p.x + 1, p.y + 1)
    else if k == 3 then Point(p.x, p.y + 1)
    else Point(p.x - 1, p.y + 1)
  }

  /** The carry map after the first `k` of the four updates made at `(x, y)`. */
  function Carried(job: Job, x: int, y: int, k: nat): map<Point, Color>
    requires WellFormed(job) && InImage(job.width, job.height, Point(x, y)) && |job.palette| > 0 && k <= 4
    decreases y, x, 3, k
  {
    if k == 0 then CarryBefore(job, x, y)
    else
      var target := KernelTap(Point(x, y), k);
      Accumulate(Carried(job, x, y, k - 1), target, ErrorAt(job, x, y), KernelWeight(Point(x, y), target))
  }

  /** The carry map once pixel `(x, y)` is quantised and its error diffused. */
  function CarryAfter(job: Job, x: int, y: int): map<Point, Color>
    requires WellFormed(job) && InImage(job.width, job.height, Point(x, y)) && |job.palette| > 0
    decreases y, x, 4, 0
  {
    Carried(job, x, y, 4)
  }

  // ---------------------------------------------------------------------------
  // Properties of the kernel
  // ---------------------------------------------------------------------------

  /** The weights 7/16, 1/16, 5/16 and 3/16 hand out exactly the whole error. */
  lemma KernelHandsOutWholeError(diff: Color)
    ensures AddColors(AddColors(AddColors(ColorGain(diff, 7.0 / 16.0), ColorGain(diff, 1.0 / 16.0)),
                                ColorGain(diff, 5.0 / 16.0)), ColorGain(diff, 3.0 / 16.0)) == diff
  {
  }

  /** The weights over the four targets sum to one. */
  lemma KernelWeightsSumToOne(p: Point)
    ensures KernelWeight(p, Point(p.x + 1, p.y)) + KernelWeight(p, Point(p.x + 1, p.y + 1))
          + KernelWeight(p, Point(p.x, p.y + 1)) + KernelWeight(p, Point(p.x - 1, p.y + 1)) == 1.0
  {
  }

  /** Every point that receives a share of `p`'s error lies strictly after `p`. */
  lemma KernelTargetsLater(p: Point, q: Point)
    ensures KernelWeight(p, q) != 0.0 <==> q in KernelTargets(p)
    ensures KernelWeight(p, q) != 0.0 ==> RasterBefore(p, q)
  {
  }

  /** Adding the recorded carry is adding `CarryAt`: an absent entry adds black. */
  lemma AdjustedAddsCarry(color: Color, carry: map<Point, Color>, p: Point)
    ensures Adjusted(color, carry, p) == AddColors(color, CarryAt(carry, p))
  {
    AddBlack(color);
  }

  /** The error and the chosen colour add up to the adjusted colour. */
  lemma QuantErrorPlusChoice(job: Job, carry: map<Point, Color>, p: Point)
    requires WellFormed(job) && InImage(job.width, job.height, p) && |job.palette| > 0
    ensures AddColors(QuantError(job, carry, p), FsChoice(job, carry, p)) == Adjusted(OriginalLab(job, p), carry, p)
  {
  }

  lemma CarryAtAccumulate(carry: map<Point, Color>, target: Point, diff: Color, weight: real, q: Point)
    ensures CarryAt(Accumulate(carry, target, diff, weight), q)
      == if q == target then AddColors(CarryAt(carry, q), ColorGain(diff, weight)) else CarryAt(carry, q)
  {
  }

  /** Diffusing adds to every point exactly its kernel share of the error;
      points outside the kernel keep their carry. */
  lemma DiffuseAddsKernelShare(carry: map<Point, Color>, p: Point, diff: Color, q: Point)
    ensures CarryAt(Diffuse(carry, p, diff), q) == AddColors(CarryAt(carry, q), ColorGain(diff, KernelWeight(p, q)))
  {
    var t1, t2, t3, t4 := Point(p.x + 1, p.y), Point(p.x + 1, p.y + 1), Point(p.x, p.y + 1), Point(p.x - 1, p.y + 1);
    var c1 := Accumulate(carry, t1, diff, 7.0 / 16.0);
    var c2 := Accumulate(c1, t2, diff, 1.0 / 16.0);
    var c3 := Accumulate(c2, t3, diff, 5.0 / 16.0);
    CarryAtAccumulate(carry, t1, diff, 7.0 / 16.0, q);
    CarryAtAccumulate(c1, t2, diff, 1.0 / 16.0, q);
    CarryAtAccumulate(c2, t3, diff, 5.0 / 16.0, q);
    CarryAtAccumulate(c3, t4, diff, 3.0 / 16.0, q);
    var share := ColorGain(diff, KernelWeight(p, q));
    if q == t1 {
      assert share == ColorGain(diff, 7.0 / 16.0);
      assert CarryAt(Diffuse(carry, p, diff), q) == AddColors(CarryAt(carry, q), ColorGain(diff, 7.0 / 16.0));
    } else if q == t2 {
      assert share == ColorGain(diff, 1.0 / 16.0);
      assert CarryAt(Diffuse(carry, p, diff), q) == AddColors(CarryAt(carry, q), ColorGain(diff, 1.0 / 16.0));
    } else if q == t3 {
      assert share == ColorGain(diff, 5.0 / 16.0);
      assert CarryAt(Diffuse(carry, p, diff), q) == AddColors(CarryAt(carry, q), ColorGain(diff, 5.0 / 16.0));
    } else if q == t4 {
      assert share == ColorGain(diff, 3.0 / 16.0);
      assert CarryAt(Diffuse(carry, p, diff), q) == AddColors(CarryAt(carry, q), ColorGain(diff, 3.0 / 16.0));
    } else {
      assert CarryAt(Diffuse(carry, p, diff), q) == CarryAt(carry, q);
      assert share == Black;
      AddBlack(CarryAt(carry, q));
    }
  }

  /** Diffusing creates the four kernel keys and removes none. */
  lemma DiffuseKeys(carry: map<Point, Color>, p: Point, diff: Color, k: Point)
    ensures k in Diffuse(carry, p, diff) <==> k in carry || k in KernelTargets(p)
  {
  }

  // ---------------------------------------------------------------------------
  // Properties of the scan
  // ---------------------------------------------------------------------------

  /** Reaching the next point of a row means the previous point is done. */
  lemma CarryBeforeStep(job: Job, x: int, y: int)
    requires WellFormed(job) && ScanPosition(job, x, y) && x > 0
    ensures ScanPosition(job, x - 1, y) && InImage(job.width, job.height, Point(x - 1, y)) && |job.palette| > 0
    ensures CarryBefore(job, x, y) == CarryAfter(job, x - 1, y)
  {
  }

  /** The four updates made at `(x, y)` are those of `Diffuse`. */
  lemma CarryAfterIsDiffuse(job: Job, x: int, y: int)
    requires WellFormed(job) && InImage(job.width, job.height, Point(x, y)) && |job.palette| > 0
    ensures ScanPosition(job, x, y)
    ensures CarryAfter(job, x, y) == Diffuse(CarryBefore(job, x, y), Point(x, y), ErrorAt(job, x, y))
  {
    var p, diff := Point(x, y), ErrorAt(job, x, y);
    var c1 := Accumulate(CarryBefore(job, x, y), Point(p.x + 1, p.y), diff, 7.0 / 16.0);
    var c2 := Accumulate(c1, Point(p.x + 1, p.y + 1), diff, 1.0 / 16.0);
    var c3 := Accumulate(c2, Point(p.x, p.y + 1), diff, 5.0 / 16.0);
    assert Carried(job, x, y, 1) == c1;
    assert Carried(job, x, y, 2) == c2;
    assert Carried(job, x, y, 3) == c3;
  }

  /** Processing a pixel diffuses the error of the colour chosen with the
      carry it was reached with. */
  lemma CarryAfterDiffuses(job: Job, x: int, y: int)
    requires WellFormed(job) && InImage(job.width, job.height, Point(x, y)) && |job.palette| > 0
    ensures ScanPosition(job, x, y)
    ensures CarryAfter(job, x, y)
      == Diffuse(CarryBefore(job, x, y), Point(x, y), QuantError(job, CarryBefore(job, x, y), Point(x, y)))
  {
    CarryAfterIsDiffuse(job, x, y);
    assert ErrorAt(job, x, y) == QuantError(job, CarryBefore(job, x, y), Point(x, y));
  }

  /** A row starts with the carry left at the end of the row above. */
  lemma CarryBeforeRowStart(job: Job, y: int)
    requires WellFormed(job) && ScanPosition(job, 0, y) && y > 0
    ensures ScanPosition(job, job.width, y - 1)
    ensures CarryBefore(job, 0, y) == CarryBefore(job, job.width, y - 1)
  {
  }

  /** Processing a pixel adds to every point its kernel share of that
      pixel's quantisation error. */
  lemma CarryAfterAddsShare(job: Job, x: int, y: int, q: Point)
    requires WellFormed(job) && InImage(job.width, job.height, Point(x, y)) && |job.palette| > 0
    ensures ScanPosition(job, x, y)
    ensures CarryAt(CarryAfter(job, x, y), q)
      == AddColors(CarryAt(CarryBefore(job, x, y), q),
                   ColorGain(ErrorAt(job, x, y), KernelWeight(Point(x, y), q)))
  {
    CarryAfterIsDiffuse(job, x, y);
    DiffuseAddsKernelShare(CarryBefore(job, x, y), Point(x, y), ErrorAt(job, x, y), q);
  }

  /** Processing a pixel adds the four kernel keys and removes none. */
  lemma CarryAfterKeys(job: Job, x: int, y: int, k: Point)
    requires WellFormed(job) && InImage(job.width, job.height, Point(x, y)) && |job.palette| > 0
    ensures ScanPosition(job, x, y)
    ensures k in CarryAfter(job, x, y) <==> k in CarryBefore(job, x, y) || k in KernelTargets(Point(x, y))
  {
    CarryAfterIsDiffuse(job, x, y);
    DiffuseKeys(CarryBefore(job, x, y), Point(x, y), ErrorAt(job, x, y), k);
  }

  /** Processing a pixel leaves the carry of every point not after it as it was. */
  lemma CarryAfterKeepsEarlier(job: Job, x: int, y: int, q: Point)
    requires WellFormed(job) && InImage(job.width, job.height, Point(x, y)) && |job.palette| > 0
    requires !RasterBefore(Point(x, y), q)
    ensures ScanPosition(job, x, y)
    ensures CarryAt(CarryAfter(job, x, y), q) == CarryAt(CarryBefore(job, x, y), q)
  {
    var diff := ErrorAt(job, x, y);
    CarryAfterAddsShare(job, x, y, q);
    KernelTargetsLater(Point(x, y), q);
    ColorGainLinear(diff, Black, 0.0, 0.0);
    AddBlack(CarryAt(CarryBefore(job, x, y), q));
  }

  /** Between two neighbouring points of a row the carry gains the kernel
      keys of the first and loses none. */
  lemma CarryBeforeStepKeys(job: Job, x: int, y: int, k: Point)
    requires WellFormed(job) && ScanPosition(job, x, y) && x > 0
    ensures ScanPosition(job, x - 1, y)
    ensures k in CarryBefore(job, x, y) <==> k in CarryBefore(job, x - 1, y) || k in KernelTargets(Point(x - 1, y))
  {
    CarryBeforeStep(job, x, y);
    CarryAfterKeys(job, x - 1, y, k);
  }

  /** Between two neighbouring points of a row the carry of every point not
      after the first stays as it was. */
  lemma CarryBeforeStepKeepsEarlier(job: Job, x: int, y: int, q: Point)
    requires WellFormed(job) && ScanPosition(job, x, y) && x > 0
    requires !RasterBefore(Point(x - 1, y), q)
    ensures ScanPosition(job, x - 1, y)
    ensures CarryAt(CarryBefore(job, x, y), q) == CarryAt(CarryBefore(job, x - 1, y), q)
  {
    CarryBeforeStep(job, x, y);
    CarryAfterKeepsEarlier(job, x - 1, y, q);
  }

  /** A point's carry is final once the scan reaches it: no later pixel adds
      to it, because every kernel target lies strictly later. */
  lemma {:induction false} CarryFinalWhenReached(job: Job, x: int, y: int, q: Point)
    requires WellFormed(job) && ScanPosition(job, x, y)
    requires InImage(job.width, job.height, q) && !RasterBefore(Point(x, y), q)
    ensures ScanPosition(job, q.x, q.y)
    ensures CarryAt(CarryBefore(job, x, y), q) == CarryAt(CarryBefore(job, q.x, q.y), q)
    decreases y, x
  {
    if Point(x, y) == q {
    } else if x > 0 {
      CarryFinalWhenReached(job, x - 1, y, q);
      CarryBeforeStepKeepsEarlier(job, x, y, q);
    } else {
      CarryBeforeRowStart(job, y);
      CarryFinalWhenReached(job, job.width, y - 1, q);
    }
  }

  /** The colour written at `q` is the palette colour nearest to the pixel's
      original colour plus all the error ever diffused to it. */
  lemma FsChosenUsesFinalCarry(job: Job, q: Point)
    requires WellFormed(job) && InImage(job.width, job.height, q) && |job.palette| > 0
    ensures ScanPosition(job, 0, job.height)
    ensures FsChosen(job, q) == FsChoice(job, CarryBefore(job, 0, job.height), q)
  {
    CarryFinalWhenReached(job, 0, job.height, q);
    AdjustedAddsCarry(OriginalLab(job, q), CarryBefore(job, 0, job.height), q);
    AdjustedAddsCarry(OriginalLab(job, q), CarryBefore(job, q.x, q.y), q);
  }

  /** Carry entries are never removed as the scan advances. */
  lemma {:induction false} CarryKeysGrow(job: Job, x0: int, y0: int, x: int, y: int, k: Point)
    requires WellFormed(job) && ScanPosition(job, x0, y0) && ScanPosition(job, x, y)
    requires !RasterBefore(Point(x, y), Point(x0, y0))
    requires k in CarryBefore(job, x0, y0)
    ensures k in CarryBefore(job, x, y)
    decreases y, x
  {
    if Point(x, y) == Point(x0, y0) {
    } else if x > 0 {
      CarryKeysGrow(job, x0, y0, x - 1, y, k);
      CarryBeforeStepKeys(job, x, y, k);
    } else if y > 0 {
      CarryBeforeRowStart(job, y);
      CarryKeysGrow(job, x0, y0, job.width, y - 1, k);
    }
  }

  /** Carry keys lie in the image or one step outside it: column -1 or
      `width`, or row `height`. */
  lemma {:induction false} CarryKeysNearImage(job: Job, x: int, y: int, k: Point)
    requires WellFormed(job) && ScanPosition(job, x, y)
    requires k in CarryBefore(job, x, y)
    ensures -1 <= k.x <= job.width && 0 <= k.y <= job.height
    decreases y, x
  {
    if x > 0 {
      CarryBeforeStepKeys(job, x, y, k);
      if k in CarryBefore(job, x - 1, y) {
        CarryKeysNearImage(job, x - 1, y, k);
      }
    } else if y > 0 {
      CarryBeforeRowStart(job, y);
      CarryKeysNearImage(job, job.width, y - 1, k);
    }
  }
}

=== FILE: wrappers.dfy ===
/** The optional value used where the source returns `undefined` or fails. */
module Wrappers {

  datatype Option<+T> = None | Some(value: T)
}
